=== FILE: README.md ===
# Fyyur booking directory — a Dafny model

Fyyur lists venues and artists and books *shows*: one artist at one venue at a
start time. All of its logic sits in the controllers of `app.py`, on top of
Flask and SQLAlchemy. This project replaces the database with an in-memory store
of three sequences (`Entities.Store`: venues, artists, shows, each in table
order) and models as a pure function over that store every controller that
reads or changes it, except the plain listings and the form-rendering routes
listed under "## Left out":

- **Queries** (`queries.dfy`): the home page's ten most recent artists and
  venues, the venue listing "by location", case-insensitive venue and artist
  search, and the venue and artist pages with past and upcoming shows. The
  listing and the two pages take the evaluation instant `now` as a parameter;
  the home page and the searches do not depend on the time.
- **Mutations** (`mutations.dfy`): create venue, artist and show; edit artist
  and venue; delete venue, cascading to its shows. Each returns an
  `Outcome(store, error)`. A request that raises anywhere is rolled back, so
  `error` always comes with the old store.
- **Forms** (`forms.dfy`): a submitted form is a map from key to the list of
  values sent. `Field` reads one value and fails on a missing key or an empty
  list. `Values` is `getlist`. The two "seeking" parses used by the controllers
  are pure functions.
- **Text** (`text.dfy`): ASCII lower-casing, the substring scan behind
  `ILIKE '%term%'` and its reference definition, and the decimal reading of a
  submitted id.
- **Ranking** (`ranking.dfy`): `ORDER BY id DESC LIMIT 10` as a sort plus a
  prefix.
- **Grouping** (`grouping.dfy`): the venue listing grouped by location, as the
  route's comments intend. See Findings.
- **Common** (`common.dfy`): filter, map, inner join (`FilterMap`), and
  primary-key lookup and allocation.

`Entities.WellFormed` states the database constraints. Ids are unique per
table, and every show names an existing artist and venue. Every mutation is
proved to preserve it.

Some behaviours of the code are easy to miss and are modelled as written:

- A show starting exactly at `now` is in neither list on a page. The page
  queries compare with strict `<` and `>`.
- Deleting an unknown venue is an error with no change. `session.delete(None)`
  raises, and the rollback also undoes the bulk delete of the venue's shows.
- The venue listing opens one bucket per venue (see Findings).
- A venue edit changes something only when `seeking_description` is submitted.
  The field updates and the commit are nested under that check.
- Venue creation sets `seeking_talent` from the mere presence of its key. The
  other forms compare the value with `'y'`.
- Artist creation reads `request.form['genres']`, a single string, and a
  missing key fails the request. What the genres column stores for that string
  is the parameter `genresOf` of `Mutations.CreateArtist`.

## Model

| member | source | states |
|---|---|---|
| Queries.Index | app.py:46-51 | the recent artists and venues are valid answers to `ORDER BY id DESC LIMIT 10`: at most ten rows of the table, newest first, and no row left out is newer than a row shown |
| Ranking.Top | app.py:48-50 | for any key and limit, the result is at most `k` rows of the input in descending key order, and no omitted row has a larger key than a kept one |
| Mutations.CreatedVenueIsMostRecent | app.py:50 | a venue just created comes first among the home page's recent venues |
| Queries.VenueAreas | app.py:57-86 | the listing has one bucket per venue whose state and city are not both empty, in store order; each bucket carries that venue's city and state and exactly one entry, whose count is the venue's number of shows after `now` |
| Queries.SharedLocationSplitsAreas | app.py:62-84 | in any store, two different venues at the same non-empty location are listed in two different buckets with that city and state, one venue in each |
| Queries.ListingAgreesWithVenuePage | app.py:76-84 | in a well-formed store a listed venue's upcoming-show count equals its page's upcoming-show count |
| Grouping.GroupByLocation | app.py:59-84 | corrected listing: no two buckets share a (city, state); every venue is listed under its own location; each bucket holds exactly the venues at its location, once each and in store order; buckets come in the order in which their locations first occur in the store |
| Grouping.SharedLocationOneArea | app.py:62-84 | corrected listing, in any store: two venues at the same location are both listed in one bucket, and no other bucket has that location |
| Queries.SearchVenues | app.py:95-114 | `count` is the number of entries, and an entry `(id, name)` is returned iff some venue with that id and name has the lower-cased term as a substring of its lower-cased name, city or state |
| Queries.SearchVenuesEmptyTerm | app.py:95-97 | the empty term returns every venue, in store order, and the count is the number of venues |
| Queries.SearchVenuesIgnoresCase | app.py:97 | two terms equal up to ASCII case give identical venue results |
| Queries.SearchVenuesKeepsOrder | app.py:97-109 | results keep store order: the hits in venues `a + b` are the hits in `a` followed by the hits in `b` |
| Queries.SearchVenuesOne | app.py:97-99 | a store of one venue yields that venue's `(id, name)` exactly once, with count 1, when the lower-cased term is a substring of its lower-cased name, city or state, and nothing with count 0 otherwise; with `SearchVenuesKeepsOrder` this fixes every result: one entry per matching venue, in store order |
| Queries.SearchArtists | app.py:270-287 | `count` is the number of entries, and an entry is returned iff some artist with that id and name has the lower-cased term as a substring of its lower-cased name |
| Queries.SearchArtistsKeepsOrder | app.py:272-282 | artist results keep store order: the hits in artists `a + b` are the hits in `a` followed by the hits in `b` |
| Queries.SearchArtistsOne | app.py:272-274 | a store of one artist yields that artist's `(id, name)` exactly once, with count 1, when the lower-cased term is a substring of its lower-cased name, and nothing with count 0 otherwise; with `SearchArtistsKeepsOrder` this fixes every result |
| Queries.SearchArtistsEmptyTerm | app.py:270-272 | the empty term returns every artist, in store order |
| Queries.SearchArtistsIgnoresCase | app.py:272 | two terms equal up to ASCII case give identical artist results |
| Queries.SearchArtistsIgnoresLocation | app.py:272 | artist search never consults city or state: changing them leaves every result unchanged |
| Text.ContainsIsSubstring | app.py:97 | the scan a `%term%` pattern performs succeeds iff the term occurs as a contiguous piece of the field |
| Text.MatchesMeansSubstring | app.py:97 | the case-insensitive match succeeds iff the lower-cased term is a substring of the lower-cased field |
| Queries.ShowVenue | app.py:123-174 | the page exists iff the venue exists; a slot is past iff it lists a show of that venue starting before `now`, joined with its artist; likewise upcoming for after `now`; each count is its list's length |
| Queries.VenuePageSplitsAtNow | app.py:129-149 | past slots start before `now` and upcoming ones after it; no slot is in both lists; a show at exactly `now` is in neither |
| Queries.VenuePageCountsShows | app.py:151-154 | in a well-formed store each count is the number of the venue's shows in that period |
| Queries.ShowArtist | app.py:296-342 | the artist page, mirror image of the venue page: slots are the artist's shows joined with their venues, split strictly around `now`, with counts equal to list lengths |
| Queries.ArtistPageSplitsAtNow | app.py:302-320 | the artist page's lists are disjoint and split strictly around `now`; a show at exactly `now` is in neither |
| Queries.ArtistPageCountsShows | app.py:321-324 | in a well-formed store each count is the number of the artist's shows in that period |
| Forms.ParseSeeking | app.py:376-381 | an absent flag key gives false, and a present one gives true iff its value is exactly `y`; the description is the submitted one, or empty when its key is absent; the parse fails only when a present key carries no value |
| Forms.ParseCreateVenueSeeking | app.py:204-205 | venue creation: the flag is the presence of `seeking_talent` whatever its value, and a missing description fails |
| Forms.CreateAndEditReadFlagDifferently | app.py:437-440 | a submitted `seeking_talent=n` reads as false on venue edit and as true on venue creation |
| Mutations.CreateVenue | app.py:190-216 | fails with the store unchanged iff one of the nine single-valued keys is missing; otherwise exactly one venue with a fresh id holding the submitted fields is appended and nothing else changes |
| Mutations.CreateVenueThenFetch | app.py:194-209 | after a successful create, looking up the id handed out finds a venue holding exactly what the form sent |
| Mutations.CreateVenuePreservesWellFormed | app.py:194-209 | venue creation keeps ids unique and shows linked |
| Mutations.DeleteVenue | app.py:237-248 | an unknown id is an error with the store unchanged; otherwise the remaining venues are exactly the others, the remaining shows exactly those booked elsewhere, and artists are untouched |
| Mutations.DeletedVenueIsGone | app.py:239-243 | after a delete the venue's page no longer exists and no remaining show is booked there |
| Mutations.DeleteVenuePreservesWellFormed | app.py:240-243 | the cascade leaves no orphan show: a well-formed store stays well formed |
| Mutations.EditArtist | app.py:372-407 | succeeds iff the artist exists, the form is valid, the seeking pair parses and the seven single-valued keys are sent; then that artist keeps its id and position and takes every other field from the form, and nothing else changes; otherwise nothing changes |
| Mutations.EditArtistPreservesWellFormed | app.py:382-395 | an artist edit keeps ids unique and shows linked |
| Mutations.EditVenue | app.py:433-470 | succeeds iff the venue exists, the form is valid, the flag parses, `seeking_description` is submitted and the text keys are sent; then the venue keeps its id and takes every other field from the form, and nothing else changes |
| Mutations.EditVenueNeedsDescription | app.py:441-470 | without a `seeking_description` key a venue edit changes nothing and reports failure |
| Mutations.EditVenuePreservesWellFormed | app.py:443-458 | a venue edit keeps ids unique and shows linked |
| Mutations.CreateArtist | app.py:486-514 | fails with the store unchanged iff the seeking pair does not parse or a single-valued key is missing; otherwise one artist with a fresh id and the submitted fields is appended, its genres being what the column makes of the single `genres` string |
| Mutations.CreateArtistThenFetch | app.py:494-508 | after a successful create, looking up the id handed out finds an artist holding the form's fields, with the genres column's conversion of the `genres` string |
| Mutations.CreateArtistPreservesWellFormed | app.py:494-508 | artist creation keeps ids unique and shows linked |
| Mutations.CreateShow | app.py:546-565 | on error the store is unchanged and no show the form describes names an existing artist and venue; otherwise one show with a fresh id, read from the form and naming an existing artist and venue, is appended |
| Mutations.CreateShowPreservesWellFormed | app.py:551-558 | show creation keeps ids unique and every show linked |
| Text.ParseIdDecimal | app.py:552-553 | reading back the decimal text of an id gives the id |

## Findings

| source | as written | input that shows it | evidently intended | confidence | as-written member | corrected member |
|---|---|---|---|---|---|---|
| app.py:62-84 | `state_city` is initialised to `''` and never reassigned, and the venue append is nested inside the `if`. Every venue with a location opens a new bucket, and venues whose state and city are both empty are not listed. | two venues both in San Francisco, CA | one bucket per (city, state) holding all venues there, as the comments at lines 66 ("all venues by city and state"), 68 ("unique venues") and 79 ("add the current venue to the last object in data") say | high; not executed | Queries.SharedLocationSplitsAreas | Grouping.GroupByLocation |

The route `venues` is modelled as written (`Queries.VenueAreas`).
`Grouping.GroupByLocation` is the corrected listing, with its intended
properties proved.

## Left out

- Flask routing, `render_template`, `flash`, `redirect`/`url_for`, and the 404 and 500 handlers are presentation only. The model reports an error flag or `None` where the routes render an error page.
- `format_datetime` (app.py:31-37) formats dates through dateutil and babel. Start times are integers, and the page slots carry the integer rather than `str(start_time)`.
- Logging setup and app launch (app.py:582-605) are I/O.
- `artists` (app.py:257-262) and `shows` (app.py:527-533) are plain table listings. `Show.detail`, `Artist.details` and `Venue.detail` live in models.py, which is not part of this model. The same holds for the GET edit forms (app.py:348-365, 409-428) that use them. The blank-form routes (app.py:181-184, 475-478, 535-539) only render templates.
- Mutations.CreateArtist: what the genres column stores for the single `genres` string depends on its column type, declared in models.py, which is not part of this model. It is the parameter `genresOf`.
- `form.validate()` lives in forms.py, which is not part of this model. It is the boolean parameter `valid` of the edits.
- Timestamp parsing of the submitted `start_time` is done by the database. It is the parameter `parseTime` of `Mutations.CreateShow`.
- Text.ParseId: reads only a non-empty run of ASCII digits. PostgreSQL's integer input also accepts surrounding blanks and a sign; such submissions fail here.
- Commit failures the database raises on its own (column types and lengths declared in models.py) are not modelled. The only failures modelled are those app.py itself causes: missing form keys, unreadable ids, unknown foreign keys, an unknown venue on delete, an unknown artist or venue on edit, a form that fails validation on edit (`valid == false`), and a venue edit without `seeking_description`. A failed commit on edit, after which the route still redirects, is not modelled.
- The delete route (app.py:228) receives the venue id as text, with no `int:` converter. `Mutations.DeleteVenue` takes the id as already converted to an integer. A non-numeric id makes the lookup raise inside the `try`, which ends like an unknown id: an error with the store unchanged.
- Sessions, connections and concurrent requests are not modelled. A transaction is "the new store or the old store".
- Queries without `ORDER BY` return rows in store order. The database gives no order guarantee.
- The id a serial column hands out is modelled as one more than the largest id in use (`Common.NextKey`).
- The listing reads `datetime.now()` once per venue. The model uses one `now` for the whole request.
- `ILIKE` wildcards (`%`, `_`) inside the term, and locale or Unicode case folding, are not modelled. The term is a literal substring and case folding is ASCII only.
- Queries.ShowVenue: states which slots each list holds and the counts, not the order of the lists.
- Queries.ShowArtist: states which slots each list holds and the counts, not the order of the lists.

=== FILE: common.dfy ===
/**
 Generic helpers shared by the booking model: an optional value, order-keeping
 filtering and mapping over sequences, and lookups of records by an integer key
 (the primary key of a table).
 */
module Common {

  datatype Option<+T> = None | Some(value: T)

  /** The elements of `xs` satisfying `p`, in their original order (a WHERE clause). */
  function Filter<T(==,!new)>(xs: seq<T>, p: T -> bool): (r: seq<T>)
    ensures |r| <= |xs|
    ensures forall x :: x in r <==> x in xs && p(x)
  {
    if xs == [] then []
    else if p(xs[0]) then [xs[0]] + Filter(xs[1..], p)
    else Filter(xs[1..], p)
  }

  /** Filtering distributes over concatenation: the kept elements stay in order. */
  lemma {:induction false} FilterAppend<T(!new)>(a: seq<T>, b: seq<T>, p: T -> bool)
    ensures Filter(a + b, p) == Filter(a, p) + Filter(b, p)
  {
    if a == [] {
      assert a + b == b;
    } else {
      assert (a + b)[1..] == a[1..] + b;
      FilterAppend(a[1..], b, p);
    }
  }

  /** A filter that every element passes keeps the whole sequence. */
  lemma {:induction false} FilterKeepsAll<T(!new)>(xs: seq<T>, p: T -> bool)
    requires forall x :: x in xs ==> p(x)
    ensures Filter(xs, p) == xs
  {
    if xs != [] {
      FilterKeepsAll(xs[1..], p);
    }
  }

  /** A filter that no element passes keeps nothing. */
  lemma {:induction false} FilterNone<T(!new)>(xs: seq<T>, p: T -> bool)
    requires forall x :: x in xs ==> !p(x)
    ensures Filter(xs, p) == []
  {
    if xs != [] {
      FilterNone(xs[1..], p);
    }
  }

  /** Two filters that agree on every element of `xs` select the same elements. */
  lemma {:induction false} FilterAgree<T(!new)>(xs: seq<T>, p: T -> bool, q: T -> bool)
    requires forall x :: x in xs ==> p(x) == q(x)
    ensures Filter(xs, p) == Filter(xs, q)
  {
    if xs != [] {
      FilterAgree(xs[1..], p, q);
    }
  }

  /** `f` applied to every element, in order. */
  function Map<T(==,!new), U(==,!new)>(xs: seq<T>, f: T -> U): (r: seq<U>)
    ensures |r| == |xs|
    ensures forall i :: 0 <= i < |xs| ==> r[i] == f(xs[i])
    ensures forall y :: y in r <==> exists x :: x in xs && y == f(x)
  {
    var r := seq(|xs|, i requires 0 <= i < |xs| => f(xs[i]));
    assert forall x :: x in xs ==> f(x) in r by {
      forall x | x in xs
        ensures f(x) in r
      {
        var i :| 0 <= i < |xs| && xs[i] == x;
        assert r[i] == f(x);
      }
    }
    r
  }

  lemma MapAppend<T(!new), U(!new)>(a: seq<T>, b: seq<T>, f: T -> U)
    ensures Map(a + b, f) == Map(a, f) + Map(b, f)
  {
  }

  /**
   The defined results of `f` over `xs`, in order: an inner join, where `f`
   yields None for a row without a partner.
   */
  function FilterMap<T(==,!new), U(==,!new)>(xs: seq<T>, f: T -> Option<U>): (r: seq<U>)
    ensures |r| <= |xs|
    ensures forall u :: u in r <==> exists x :: x in xs && f(x) == Some(u)
    ensures (forall x :: x in xs ==> f(x).Some?) ==> |r| == |xs|
  {
    if xs == [] then []
    else
      var rest := FilterMap(xs[1..], f);
      assert forall x :: x in xs <==> x == xs[0] || x in xs[1..];
      match f(xs[0])
      case Some(u) => [u] + rest
      case None => rest
  }

  /** The set of keys carried by the records of `xs`. */
  function Keys<T(==,!new)>(xs: seq<T>, key: T -> int): set<int>
  {
    set x | x in xs :: key(x)
  }

  /** No two records of `xs` share a key (a primary-key constraint). */
  predicate UniqueKeys<T(==,!new)>(xs: seq<T>, key: T -> int)
  {
    forall i, j :: 0 <= i < j < |xs| ==> key(xs[i]) != key(xs[j])
  }

  /** The first record of `xs` whose key is `k` (`Model.query.get(k)`). */
  function FindByKey<T(==,!new)>(xs: seq<T>, key: T -> int, k: int): (r: Option<T>)
    ensures r.Some? <==> k in Keys(xs, key)
    ensures r.Some? ==> r.value in xs && key(r.value) == k
  {
    if xs == [] then None
    else if key(xs[0]) == k then Some(xs[0])
    else
      assert Keys(xs, key) == {key(xs[0])} + Keys(xs[1..], key) by {
        assert forall x :: x in xs <==> x == xs[0] || x in xs[1..];
      }
      FindByKey(xs[1..], key, k)
  }

  /** The value a serial primary key hands out next: above every key in use, starting at 1. */
  function NextKey<T(==,!new)>(xs: seq<T>, key: T -> int): (r: int)
    ensures r >= 1
    ensures forall x :: x in xs ==> key(x) < r
  {
    if xs == [] then 1
    else
      var rest := NextKey(xs[1..], key);
      assert forall x :: x in xs <==> x == xs[0] || x in xs[1..];
      if key(xs[0]) + 1 > rest then key(xs[0]) + 1 else rest
  }

  /** Appending a record whose key is not yet in use keeps the keys unique. */
  lemma UniqueKeysAppend<T(!new)>(xs: seq<T>, key: T -> int, x: T)
    requires UniqueKeys(xs, key)
    requires key(x) !in Keys(xs, key)
    ensures UniqueKeys(xs + [x], key)
    ensures Keys(xs + [x], key) == Keys(xs, key) + {key(x)}
  {
    var ys := xs + [x];
    forall i, j | 0 <= i < j < |ys|
      ensures key(ys[i]) != key(ys[j])
    {
      if j == |xs| {
        assert ys[i] in xs;
      }
    }
    assert forall y :: y in ys <==> y in xs || y == x;
  }

  /** Records replaced position by position with records of the same key keep the key set and its uniqueness. */
  lemma SameKeysPointwise<T(!new)>(xs: seq<T>, ys: seq<T>, key: T -> int)
    requires |xs| == |ys|
    requires forall i :: 0 <= i < |xs| ==> key(xs[i]) == key(ys[i])
    ensures UniqueKeys(xs, key) ==> UniqueKeys(ys, key)
    ensures Keys(xs, key) == Keys(ys, key)
  {
    forall k | k in Keys(xs, key)
      ensures k in Keys(ys, key)
    {
      var x :| x in xs && key(x) == k;
      var i :| 0 <= i < |xs| && xs[i] == x;
      assert ys[i] in ys;
    }
    forall k | k in Keys(ys, key)
      ensures k in Keys(xs, key)
    {
      var y :| y in ys && key(y) == k;
      var i :| 0 <= i < |ys| && ys[i] == y;
      assert xs[i] in xs;
    }
  }

  /** Keeping a subset of the records keeps their keys unique. */
  lemma UniqueKeysFilter<T(!new)>(xs: seq<T>, key: T -> int, p: T -> bool)
    requires UniqueKeys(xs, key)
    ensures UniqueKeys(Filter(xs, p), key)
    decreases |xs|
  {
    if xs != [] {
      UniqueKeysFilter(xs[1..], key, p);
      var rest := Filter(xs[1..], p);
      if p(xs[0]) {
        var ys := [xs[0]] + rest;
        forall i, j | 0 <= i < j < |ys|
          ensures key(ys[i]) != key(ys[j])
        {
          if i == 0 {
            assert ys[j] in rest;
            assert ys[j] in xs[1..];
            var m :| 0 <= m < |xs[1..]| && xs[1..][m] == ys[j];
            assert xs[m + 1] == ys[j];
          } else {
            assert ys[i] == rest[i - 1] && ys[j] == rest[j - 1];
          }
        }
      }
    }
  }
}

=== FILE: entities.dfy ===
/**
 The three tables of the booking directory held in memory: venues, artists and
 the shows that book one artist at one venue at a start time. Rows keep their
 table's iteration order; timestamps are plain integers.
 */
module Entities {
  import opened Common

  datatype Venue = Venue(
    id: int,
    name: string,
    city: string,
    state: string,
    address: string,
    phone: string,
    imageLink: string,
    facebookLink: string,
    website: string,
    genres: seq<string>,
    seekingTalent: bool,
    seekingDescription: string)

  datatype Artist = Artist(
    id: int,
    name: string,
    city: string,
    state: string,
    phone: string,
    imageLink: string,
    facebookLink: string,
    website: string,
    genres: seq<string>,
    seekingVenue: bool,
    seekingDescription: string)

  datatype Show = Show(id: int, artistId: int, venueId: int, startTime: int)

  datatype Store = Store(venues: seq<Venue>, artists: seq<Artist>, shows: seq<Show>)

  function VenueKey(v: Venue): int { v.id }
  function ArtistKey(a: Artist): int { a.id }
  function ShowKey(s: Show): int { s.id }

  function VenueIds(st: Store): set<int> { Keys(st.venues, VenueKey) }
  function ArtistIds(st: Store): set<int> { Keys(st.artists, ArtistKey) }
  function ShowIds(st: Store): set<int> { Keys(st.shows, ShowKey) }

  /** `Venue.query.get(id)`. */
  function FindVenue(st: Store, id: int): Option<Venue>
  {
    FindByKey(st.venues, VenueKey, id)
  }

  /** `Artist.query.get(id)`. */
  function FindArtist(st: Store, id: int): Option<Artist>
  {
    FindByKey(st.artists, ArtistKey, id)
  }

  /** A show whose artist and venue both exist. */
  predicate ShowIsLinked(st: Store, s: Show)
  {
    s.artistId in ArtistIds(st) && s.venueId in VenueIds(st)
  }

  /**
   The database's constraints: ids are primary keys of their tables, and every
   show's foreign keys name an existing artist and venue.
   */
  predicate WellFormed(st: Store)
  {
    && UniqueKeys(st.venues, VenueKey)
    && UniqueKeys(st.artists, ArtistKey)
    && UniqueKeys(st.shows, ShowKey)
    && forall s :: s in st.shows ==> ShowIsLinked(st, s)
  }
}

=== FILE: forms.dfy ===
/**
 A submitted HTML form as the request layer hands it over: every key maps to
 the list of values sent for it. Reading one value of a key that is missing, or
 that carries no value, is an error; reading the list of a missing key gives the
 empty list.
 */
module Forms {
  import opened Common

  type Form = map<string, seq<string>>

  /** `request.form[k]`: the first value sent for `k`; None where the request layer raises. */
  function Field(f: Form, k: string): Option<string>
  {
    if k in f && |f[k]| > 0 then Some(f[k][0]) else None
  }

  /** `request.form.getlist(k)`. */
  function Values(f: Form, k: string): seq<string>
  {
    if k in f then f[k] else []
  }

  /** The form sent `value` as the (first) value of `k`. */
  predicate Sends(f: Form, k: string, value: string)
  {
    k in f && |f[k]| > 0 && f[k][0] == value
  }

  /** Every key of `keys` carries a value. */
  predicate SuppliesAll(f: Form, keys: seq<string>)
  {
    forall k :: k in keys ==> Field(f, k).Some?
  }

  /** A seeking flag with its free-text description. */
  datatype Seeking = Seeking(flag: bool, description: string)

  /** The value a ticked seeking checkbox submits. */
  const Ticked: string := "y"

  const SeekingDescriptionKey: string := "seeking_description"

  /**
   The seeking parse used by artist creation, artist edit and venue edit: the
   flag is false when its key is absent and otherwise true exactly when the
   value is the checkbox token; the description defaults to the empty string.
   None where reading a present key raises.
   */
  function ParseSeeking(f: Form, flagKey: string): (r: Option<Seeking>)
    ensures r.Some? <==>
      (flagKey in f ==> |f[flagKey]| > 0) &&
      (SeekingDescriptionKey in f ==> |f[SeekingDescriptionKey]| > 0)
    ensures r.Some? ==> (r.value.flag <==> Sends(f, flagKey, Ticked))
    ensures r.Some? && SeekingDescriptionKey !in f ==> r.value.description == ""
    ensures r.Some? && SeekingDescriptionKey in f ==> Sends(f, SeekingDescriptionKey, r.value.description)
  {
    var flag :=
      if flagKey in f then
        match Field(f, flagKey)
        case Some(v) => Some(v == Ticked)
        case None => None
      else Some(false);
    var description :=
      if SeekingDescriptionKey in f then Field(f, SeekingDescriptionKey) else Some("");
    if flag.Some? && description.Some? then Some(Seeking(flag.value, description.value)) else None
  }

  /**
   The seeking parse of venue creation: the flag is set by the presence of its
   key alone, whatever its value, and the description must be sent.
   */
  function ParseCreateVenueSeeking(f: Form): (r: Option<Seeking>)
    ensures r.Some? <==> Field(f, SeekingDescriptionKey).Some?
    ensures r.Some? ==> (r.value.flag <==> "seeking_talent" in f)
    ensures r.Some? ==> Sends(f, SeekingDescriptionKey, r.value.description)
  {
    match Field(f, SeekingDescriptionKey)
    case Some(d) => Some(Seeking("seeking_talent" in f, d))
    case None => None
  }

  /**
   The two parses disagree: an unticked value submitted for the talent flag is
   read as false by the venue edit and as true by the venue creation.
   */
  lemma CreateAndEditReadFlagDifferently(description: string)
    ensures var f := map["seeking_talent" := ["n"], SeekingDescriptionKey := [description]];
      ParseSeeking(f, "seeking_talent") == Some(Seeking(false, description)) &&
      ParseCreateVenueSeeking(f) == Some(Seeking(true, description))
  {
  }
}

=== FILE: grouping.dfy ===
/**
 The venue listing as its comments describe it: venues grouped into one bucket
 per (city, state) pair, buckets in order of first appearance, each venue listed
 under its own location. This is the corrected counterpart of
 `Queries.VenueAreas`, which opens a bucket per venue.
 */
module Grouping {
  import opened Common
  import opened Entities
  import opened Queries

  /** No two buckets share a (city, state) pair. */
  predicate DistinctLocations(areas: seq<Area>)
  {
    forall i, j :: 0 <= i < j < |areas| ==>
      areas[i].city != areas[j].city || areas[i].state != areas[j].state
  }

  /** `e` is listed in some bucket for location (`city`, `state`). */
  ghost predicate ListedUnder(areas: seq<Area>, city: string, state: string, e: VenueSummary)
  {
    exists i :: 0 <= i < |areas| && areas[i].city == city && areas[i].state == state && e in areas[i].venues
  }

  /** The position of the bucket for (`city`, `state`), if there is one. */
  function AreaIndex(areas: seq<Area>, city: string, state: string): (r: Option<nat>)
    ensures r.Some? ==> r.value < |areas| && areas[r.value].city == city && areas[r.value].state == state
    ensures r.None? ==> forall i :: 0 <= i < |areas| ==> areas[i].city != city || areas[i].state != state
  {
    if areas == [] then None
    else if areas[0].city == city && areas[0].state == state then Some(0)
    else
      match AreaIndex(areas[1..], city, state)
      case Some(i) => Some(i + 1)
      case None => None
  }

  /** Lists `entry` under venue `v`'s location, opening a bucket at the end when there is none yet. */
  function Place(areas: seq<Area>, v: Venue, entry: VenueSummary): (r: seq<Area>)
    ensures DistinctLocations(areas) ==> DistinctLocations(r)
    ensures ListedUnder(r, v.city, v.state, entry)
    ensures forall c, s, e :: ListedUnder(areas, c, s, e) ==> ListedUnder(r, c, s, e)
    ensures forall i, e :: 0 <= i < |r| && e in r[i].venues ==>
      (e == entry && r[i].city == v.city && r[i].state == v.state) || ListedUnder(areas, r[i].city, r[i].state, e)
  {
    match AreaIndex(areas, v.city, v.state)
    case Some(k) =>
      var r := areas[k := areas[k].(venues := areas[k].venues + [entry])];
      assert entry in r[k].venues;
      assert forall i, e :: 0 <= i < |r| && e in r[i].venues ==>
        (e == entry && i == k) || e in areas[i].venues;
      r
    case None =>
      var r := areas + [Area(v.city, v.state, [entry])];
      assert entry in r[|areas|].venues;
      assert forall i, e :: 0 <= i < |areas| && e in areas[i].venues ==> e in r[i].venues;
      r
  }

  /** Venue `v` is at (`city`, `state`). */
  predicate At(v: Venue, city: string, state: string)
  {
    v.city == city && v.state == state
  }

  /** The filter test for the venues at (`city`, `state`). */
  function LocatedAt(city: string, state: string): Venue -> bool
  {
    (v: Venue) => At(v, city, state)
  }

  /** A venue's listing entry. */
  function SummaryAt(st: Store, now: int): Venue -> VenueSummary
  {
    (v: Venue) => Summary(st, v, now)
  }

  /** The entries a bucket for (`city`, `state`) should hold: its venues among `vs`, once each, in order. */
  function VenuesAt(st: Store, vs: seq<Venue>, city: string, state: string, now: int): seq<VenueSummary>
  {
    Map(Filter(vs, LocatedAt(city, state)), SummaryAt(st, now))
  }

  /** The position of the first venue of `vs` at (`city`, `state`); `|vs|` when there is none. */
  function FirstAt(vs: seq<Venue>, city: string, state: string): (r: nat)
    ensures r <= |vs|
    ensures r < |vs| ==> At(vs[r], city, state)
    ensures forall k :: 0 <= k < r ==> !At(vs[k], city, state)
  {
    if vs == [] then 0
    else
      var init := vs[..|vs| - 1];
      var p := FirstAt(init, city, state);
      if p < |init| then p
      else if At(vs[|vs| - 1], city, state) then |init|
      else |vs|
  }

  /** Every venue of `vs` is listed under its own location. */
  ghost predicate Covers(r: seq<Area>, st: Store, vs: seq<Venue>, now: int)
  {
    forall v :: v in vs ==> ListedUnder(r, v.city, v.state, Summary(st, v, now))
  }

  /** Each bucket holds exactly the entries of its location's venues among `vs`, once each, in order. */
  predicate ExactBuckets(r: seq<Area>, st: Store, vs: seq<Venue>, now: int)
  {
    forall i :: 0 <= i < |r| ==> r[i].venues == VenuesAt(st, vs, r[i].city, r[i].state, now)
  }

  /** Every bucket's location occurs in `vs`, and the buckets follow the order of those first occurrences. */
  predicate FirstSeenOrder(r: seq<Area>, vs: seq<Venue>)
  {
    && (forall i :: 0 <= i < |r| ==> FirstAt(vs, r[i].city, r[i].state) < |vs|)
    && (forall i, j :: 0 <= i < j < |r| ==> FirstAt(vs, r[i].city, r[i].state) < FirstAt(vs, r[j].city, r[j].state))
  }

  /** One more venue at the end adds its entry to its own location's bucket contents and to no other. */
  lemma VenuesAtSnoc(st: Store, init: seq<Venue>, last: Venue, city: string, state: string, now: int)
    ensures VenuesAt(st, init + [last], city, state, now) ==
      VenuesAt(st, init, city, state, now) + (if At(last, city, state) then [Summary(st, last, now)] else [])
  {
    var p := LocatedAt(city, state);
    FilterAppend(init, [last], p);
    assert [last][1..] == [];
    MapAppend(Filter(init, p), Filter([last], p), SummaryAt(st, now));
  }

  /** A location already seen keeps its first position when a venue is added at the end. */
  lemma FirstAtSnoc(init: seq<Venue>, last: Venue, city: string, state: string)
    requires FirstAt(init, city, state) < |init|
    ensures FirstAt(init + [last], city, state) == FirstAt(init, city, state)
  {
    assert (init + [last])[..|init|] == init;
  }

  /** A location first seen at the last venue has that venue's position. */
  lemma FirstAtNew(init: seq<Venue>, last: Venue)
    requires forall v :: v in init ==> !At(v, last.city, last.state)
    ensures FirstAt(init + [last], last.city, last.state) == |init|
  {
    assert (init + [last])[..|init|] == init;
    assert forall k :: 0 <= k < |init| ==> !At(init[k], last.city, last.state) by {
      forall k | 0 <= k < |init|
        ensures !At(init[k], last.city, last.state)
      {
        assert init[k] in init;
      }
    }
  }

  /** No earlier venue sits at a location that has no bucket yet. */
  lemma NoVenueThere(st: Store, init: seq<Venue>, now: int, prev: seq<Area>, city: string, state: string)
    requires Covers(prev, st, init, now)
    requires forall i :: 0 <= i < |prev| ==> prev[i].city != city || prev[i].state != state
    ensures forall v :: v in init ==> !At(v, city, state)
  {
    forall v | v in init
      ensures !At(v, city, state)
    {
      assert ListedUnder(prev, v.city, v.state, Summary(st, v, now));
    }
  }

  /** The last venue joins the existing bucket `k` for its location. */
  lemma PlaceExisting(st: Store, init: seq<Venue>, last: Venue, now: int, prev: seq<Area>, k: nat)
    requires k < |prev| && At(last, prev[k].city, prev[k].state)
    requires DistinctLocations(prev)
    requires ExactBuckets(prev, st, init, now)
    requires FirstSeenOrder(prev, init)
    ensures var r := prev[k := prev[k].(venues := prev[k].venues + [Summary(st, last, now)])];
      ExactBuckets(r, st, init + [last], now) && FirstSeenOrder(r, init + [last])
  {
    var r := prev[k := prev[k].(venues := prev[k].venues + [Summary(st, last, now)])];
    forall i | 0 <= i < |r|
      ensures r[i].venues == VenuesAt(st, init + [last], r[i].city, r[i].state, now)
      ensures FirstAt(init + [last], r[i].city, r[i].state) == FirstAt(init, r[i].city, r[i].state)
    {
      VenuesAtSnoc(st, init, last, r[i].city, r[i].state, now);
      FirstAtSnoc(init, last, r[i].city, r[i].state);
    }
  }

  /** A new bucket for the last venue's location holds exactly that venue. */
  lemma NewBucketExact(st: Store, init: seq<Venue>, last: Venue, now: int, prev: seq<Area>)
    requires forall v :: v in init ==> !At(v, last.city, last.state)
    requires forall i :: 0 <= i < |prev| ==> prev[i].city != last.city || prev[i].state != last.state
    requires ExactBuckets(prev, st, init, now)
    ensures ExactBuckets(prev + [Area(last.city, last.state, [Summary(st, last, now)])], st, init + [last], now)
  {
    var r := prev + [Area(last.city, last.state, [Summary(st, last, now)])];
    FilterNone(init, LocatedAt(last.city, last.state));
    forall i | 0 <= i < |r|
      ensures r[i].venues == VenuesAt(st, init + [last], r[i].city, r[i].state, now)
    {
      VenuesAtSnoc(st, init, last, r[i].city, r[i].state, now);
    }
  }

  /** A new bucket at the end keeps the buckets in order of first appearance. */
  lemma NewBucketOrdered(init: seq<Venue>, last: Venue, prev: seq<Area>, entries: seq<VenueSummary>)
    requires forall v :: v in init ==> !At(v, last.city, last.state)
    requires FirstSeenOrder(prev, init)
    ensures FirstSeenOrder(prev + [Area(last.city, last.state, entries)], init + [last])
  {
    FirstAtNew(init, last);
    forall i | 0 <= i < |prev|
      ensures FirstAt(init + [last], prev[i].city, prev[i].state) == FirstAt(init, prev[i].city, prev[i].state)
    {
      FirstAtSnoc(init, last, prev[i].city, prev[i].state);
    }
  }

  /**
   Placing the last venue into the buckets for the earlier ones keeps each
   bucket's contents exact and the buckets in order of first appearance.
   */
  lemma PlaceKeepsGroups(st: Store, init: seq<Venue>, last: Venue, now: int, prev: seq<Area>)
    requires DistinctLocations(prev)
    requires Covers(prev, st, init, now)
    requires ExactBuckets(prev, st, init, now)
    requires FirstSeenOrder(prev, init)
    ensures var r := Place(prev, last, Summary(st, last, now));
      ExactBuckets(r, st, init + [last], now) && FirstSeenOrder(r, init + [last])
  {
    var e := Summary(st, last, now);
    match AreaIndex(prev, last.city, last.state)
    case Some(k) =>
      assert Place(prev, last, e) == prev[k := prev[k].(venues := prev[k].venues + [e])];
      PlaceExisting(st, init, last, now, prev, k);
    case None =>
      var r := prev + [Area(last.city, last.state, [e])];
      assert Place(prev, last, e) == r;
      NoVenueThere(st, init, now, prev, last.city, last.state);
      NewBucketExact(st, init, last, now, prev);
      NewBucketOrdered(init, last, prev, [e]);
  }

  /** Placing the last venue keeps every venue listed under its location. */
  lemma PlaceCovers(st: Store, init: seq<Venue>, last: Venue, now: int, prev: seq<Area>)
    requires Covers(prev, st, init, now)
    ensures Covers(Place(prev, last, Summary(st, last, now)), st, init + [last], now)
  {
    assert forall v :: v in init + [last] <==> v in init || v == last;
  }

  /** The buckets for the venues of `vs`, placed one by one in store order. */
  function GroupFrom(st: Store, vs: seq<Venue>, now: int): (r: seq<Area>)
    ensures DistinctLocations(r)
    ensures Covers(r, st, vs, now)
    ensures ExactBuckets(r, st, vs, now)
    ensures FirstSeenOrder(r, vs)
    decreases |vs|
  {
    if vs == [] then []
    else
      var init := vs[..|vs| - 1];
      var last := vs[|vs| - 1];
      assert vs == init + [last];
      var prev := GroupFrom(st, init, now);
      PlaceCovers(st, init, last, now, prev);
      PlaceKeepsGroups(st, init, last, now, prev);
      Place(prev, last, Summary(st, last, now))
  }

  /**
   The venue listing grouped by location over the whole store: no two buckets
   share a location; every venue is listed under its own; each bucket holds
   exactly the venues at its location, once each and in store order
   (`ExactBuckets`); and the buckets come in the order in which their locations
   first occur in the store (`FirstSeenOrder`).
   */
  function GroupByLocation(st: Store, now: int): (r: seq<Area>)
    ensures DistinctLocations(r)
    ensures Covers(r, st, st.venues, now)
    ensures ExactBuckets(r, st, st.venues, now)
    ensures FirstSeenOrder(r, st.venues)
  {
    GroupFrom(st, st.venues, now)
  }

  /**
   Any two venues at the same location are listed together, in the one bucket
   for that location.
   */
  lemma SharedLocationOneArea(st: Store, i: nat, j: nat, now: int)
    requires i < j < |st.venues|
    requires st.venues[i].city == st.venues[j].city && st.venues[i].state == st.venues[j].state
    ensures var r := GroupByLocation(st, now);
      var vi, vj := st.venues[i], st.venues[j];
      exists k :: 0 <= k < |r| && r[k].city == vi.city && r[k].state == vi.state
        && Summary(st, vi, now) in r[k].venues && Summary(st, vj, now) in r[k].venues
        && forall m :: 0 <= m < |r| && m != k ==> r[m].city != vi.city || r[m].state != vi.state
  {
    var r := GroupByLocation(st, now);
    var vi, vj := st.venues[i], st.venues[j];
    assert vi in st.venues;
    assert ListedUnder(r, vi.city, vi.state, Summary(st, vi, now));
    var k :| 0 <= k < |r| && r[k].city == vi.city && r[k].state == vi.state && Summary(st, vi, now) in r[k].venues;
    var kept := Filter(st.venues, LocatedAt(vi.city, vi.state));
    assert r[k].venues == Map(kept, SummaryAt(st, now));
    assert vj in kept by {
      assert vj in st.venues;
      assert LocatedAt(vi.city, vi.state)(vj);
    }
    assert SummaryAt(st, now)(vj) == Summary(st, vj, now);
    forall m | 0 <= m < |r| && m != k
      ensures r[m].city != vi.city || r[m].state != vi.state
    {
      if m < k {
        assert r[m].city != r[k].city || r[m].state != r[k].state;
      } else {
        assert r[k].city != r[m].city || r[k].state != r[m].state;
      }
    }
  }
}

=== FILE: mutations.dfy ===
/**
 The write side of the booking directory: creating venues, artists and shows
 from submitted forms, editing artists and venues, and deleting a venue with
 its shows. Every request runs as one transaction: it either produces the new
 store or, when anything raises on the way, leaves the store as it was and
 reports an error.
 */
module Mutations {
  import opened Common
  import opened Text
  import opened Entities
  import opened Forms
  import opened Ranking
  import opened Queries

  /** The store after a request and whether the request failed. */
  datatype Outcome = Outcome(store: Store, error: bool)

  /** A rolled-back request: the store as it was, with the error reported. */
  function Rollback(st: Store): Outcome
  {
    Outcome(st, true)
  }

  function NextVenueId(st: Store): int { NextKey(st.venues, VenueKey) }
  function NextArtistId(st: Store): int { NextKey(st.artists, ArtistKey) }
  function NextShowId(st: Store): int { NextKey(st.shows, ShowKey) }

  // ---------------------------------------------------------------------
  // Venues
  // ---------------------------------------------------------------------

  /** The single-valued keys both venue creation and venue edit read; a missing one raises. */
  const VenueTextKeys: seq<string> :=
    ["name", "city", "state", "address", "phone", "facebook_link", "image_link", "website_link"]

  /** The keys venue creation reads one value of: the text keys and the seeking description. */
  const VenueCreateKeys: seq<string> := VenueTextKeys + [SeekingDescriptionKey]

  /** The text fields of `v` are those the form sent. */
  predicate VenueTextFrom(v: Venue, f: Form)
  {
    && Sends(f, "name", v.name)
    && Sends(f, "city", v.city)
    && Sends(f, "state", v.state)
    && Sends(f, "address", v.address)
    && Sends(f, "phone", v.phone)
    && Sends(f, "facebook_link", v.facebookLink)
    && Sends(f, "image_link", v.imageLink)
    && Sends(f, "website_link", v.website)
    && v.genres == Values(f, "genres")
  }

  /** `v` records a venue-creation form: seeking talent whenever its key was sent at all. */
  predicate VenueFromCreateForm(v: Venue, f: Form)
  {
    && VenueTextFrom(v, f)
    && ParseCreateVenueSeeking(f) == Some(Seeking(v.seekingTalent, v.seekingDescription))
  }

  /** `v` records a venue-edit form: the seeking flag and description as the shared parse reads them. */
  predicate VenueFromEditForm(v: Venue, f: Form)
  {
    && VenueTextFrom(v, f)
    && ParseSeeking(f, "seeking_talent") == Some(Seeking(v.seekingTalent, v.seekingDescription))
  }

  /** The venue a form describes under id `id`, given its seeking fields; None when a text key is missing. */
  function VenueOf(f: Form, id: int, seeking: Seeking): (r: Option<Venue>)
    ensures r.Some? <==> SuppliesAll(f, VenueTextKeys)
    ensures r.Some? ==>
      r.value.id == id && VenueTextFrom(r.value, f) &&
      r.value.seekingTalent == seeking.flag && r.value.seekingDescription == seeking.description
  {
    if SuppliesAll(f, VenueTextKeys) then
      Some(Venue(
        id,
        Field(f, "name").value,
        Field(f, "city").value,
        Field(f, "state").value,
        Field(f, "address").value,
        Field(f, "phone").value,
        Field(f, "image_link").value,
        Field(f, "facebook_link").value,
        Field(f, "website_link").value,
        Values(f, "genres"),
        seeking.flag,
        seeking.description))
    else None
  }

  /**
   Venue creation. All nine single-valued keys must be sent (the genres list may
   be empty); the new venue gets a fresh id and is appended, nothing else changes.
   */
  function CreateVenue(st: Store, f: Form): (r: Outcome)
    ensures r.error <==> !SuppliesAll(f, VenueCreateKeys)
    ensures r.error ==> r.store == st
    ensures !r.error ==>
      && r.store.artists == st.artists
      && r.store.shows == st.shows
      && |r.store.venues| == |st.venues| + 1
      && r.store.venues[..|st.venues|] == st.venues
      && r.store.venues[|st.venues|].id !in VenueIds(st)
      && VenueFromCreateForm(r.store.venues[|st.venues|], f)
  {
    assert SuppliesAll(f, VenueCreateKeys) <==>
      SuppliesAll(f, VenueTextKeys) && Field(f, SeekingDescriptionKey).Some? by {
      assert forall k :: k in VenueCreateKeys <==> k in VenueTextKeys || k == SeekingDescriptionKey;
    }
    match ParseCreateVenueSeeking(f)
    case None => Rollback(st)
    case Some(seeking) =>
      match VenueOf(f, NextVenueId(st), seeking)
      case None => Rollback(st)
      case Some(v) => Outcome(st.(venues := st.venues + [v]), false)
  }

  /**
   Venue edit. The update happens only for a known venue, a valid form, a
   readable seeking flag, and a submitted `seeking_description`; without that
   key the request falls through to the not-found page and nothing changes.
   On success the venue keeps its id and position and takes every other field
   from the form; nothing else changes.
   */
  function EditVenue(st: Store, venueId: int, f: Form, valid: bool): (r: Outcome)
    ensures !r.error <==>
      && venueId in VenueIds(st)
      && valid
      && ParseSeeking(f, "seeking_talent").Some?
      && SeekingDescriptionKey in f
      && SuppliesAll(f, VenueTextKeys)
    ensures r.error ==> r.store == st
    ensures !r.error ==>
      && r.store.artists == st.artists
      && r.store.shows == st.shows
      && |r.store.venues| == |st.venues|
      && forall i :: 0 <= i < |st.venues| ==>
           if st.venues[i].id == venueId
           then r.store.venues[i].id == venueId && VenueFromEditForm(r.store.venues[i], f)
           else r.store.venues[i] == st.venues[i]
  {
    if FindVenue(st, venueId).None? || !valid then Rollback(st)
    else
      match ParseSeeking(f, "seeking_talent")
      case None => Rollback(st)
      case Some(seeking) =>
        if SeekingDescriptionKey !in f then Rollback(st)
        else
          match VenueOf(f, venueId, seeking)
          case None => Rollback(st)
          case Some(v) =>
            var vs := seq(|st.venues|, i requires 0 <= i < |st.venues| =>
              if st.venues[i].id == venueId then v else st.venues[i]);
            Outcome(st.(venues := vs), false)
  }

  /** A venue edit without a `seeking_description` key changes nothing and reports failure. */
  lemma EditVenueNeedsDescription(st: Store, venueId: int, f: Form, valid: bool)
    requires SeekingDescriptionKey !in f
    ensures EditVenue(st, venueId, f, valid) == Rollback(st)
  {
  }

  /**
   Venue deletion: the venue and every show booked at it are removed and all
   other rows stay. An unknown id makes the delete raise, and the rollback also
   undoes the bulk delete of its shows: the store is unchanged and the error set.
   */
  function DeleteVenue(st: Store, venueId: int): (r: Outcome)
    ensures r.error <==> venueId !in VenueIds(st)
    ensures r.error ==> r.store == st
    ensures !r.error ==>
      && r.store.artists == st.artists
      && (forall v :: v in r.store.venues <==> v in st.venues && v.id != venueId)
      && (forall s :: s in r.store.shows <==> s in st.shows && s.venueId != venueId)
  {
    match FindVenue(st, venueId)
    case None => Rollback(st)
    case Some(_) =>
      var venues := Filter(st.venues, (v: Venue) => v.id != venueId);
      var shows := Filter(st.shows, (s: Show) => s.venueId != venueId);
      Outcome(Store(venues, st.artists, shows), false)
  }

  // ---------------------------------------------------------------------
  // Artists
  // ---------------------------------------------------------------------

  /** The keys artist creation reads one value of. */
  const ArtistCreateKeys: seq<string> :=
    ["name", "genres", "city", "state", "phone", "website_link", "image_link", "facebook_link"]

  /** The keys artist edit reads one value of. */
  const ArtistEditKeys: seq<string> :=
    ["name", "city", "state", "phone", "website_link", "facebook_link", "image_link"]

  /** The single-valued text fields of `a` are those the form sent. */
  predicate ArtistTextFrom(a: Artist, f: Form)
  {
    && Sends(f, "name", a.name)
    && Sends(f, "city", a.city)
    && Sends(f, "state", a.state)
    && Sends(f, "phone", a.phone)
    && Sends(f, "website_link", a.website)
    && Sends(f, "facebook_link", a.facebookLink)
    && Sends(f, "image_link", a.imageLink)
    && ParseSeeking(f, "seeking_venue") == Some(Seeking(a.seekingVenue, a.seekingDescription))
  }

  /**
   `a` records an artist-creation form. The creation reads one string under
   `genres`; what the genres column makes of it is `genresOf`.
   */
  predicate ArtistFromCreateForm(a: Artist, f: Form, genresOf: string -> seq<string>)
  {
    ArtistTextFrom(a, f) && Field(f, "genres").Some? && a.genres == genresOf(Field(f, "genres").value)
  }

  /** `a` records an artist-edit form: the genres are the whole list sent. */
  predicate ArtistFromEditForm(a: Artist, f: Form)
  {
    ArtistTextFrom(a, f) && a.genres == Values(f, "genres")
  }

  /** The artist a form describes under id `id`, with the given genres. */
  function ArtistOf(f: Form, id: int, genres: seq<string>): (r: Option<Artist>)
    ensures r.Some? <==> ParseSeeking(f, "seeking_venue").Some? && SuppliesAll(f, ArtistEditKeys)
    ensures r.Some? ==> r.value.id == id && r.value.genres == genres && ArtistTextFrom(r.value, f)
  {
    match ParseSeeking(f, "seeking_venue")
    case None => None
    case Some(seeking) =>
      if SuppliesAll(f, ArtistEditKeys) then
        Some(Artist(
          id,
          Field(f, "name").value,
          Field(f, "city").value,
          Field(f, "state").value,
          Field(f, "phone").value,
          Field(f, "image_link").value,
          Field(f, "facebook_link").value,
          Field(f, "website_link").value,
          genres,
          seeking.flag,
          seeking.description))
      else None
  }

  /**
   Artist creation: the seeking fields must parse and all eight single-valued
   keys must be sent; the new artist gets a fresh id and is appended, nothing
   else changes. The single `genres` string is stored as `genresOf` converts
   it: that conversion belongs to the column type, outside this model.
   */
  function CreateArtist(st: Store, f: Form, genresOf: string -> seq<string>): (r: Outcome)
    ensures r.error <==> !(ParseSeeking(f, "seeking_venue").Some? && SuppliesAll(f, ArtistCreateKeys))
    ensures r.error ==> r.store == st
    ensures !r.error ==>
      && r.store.venues == st.venues
      && r.store.shows == st.shows
      && |r.store.artists| == |st.artists| + 1
      && r.store.artists[..|st.artists|] == st.artists
      && r.store.artists[|st.artists|].id !in ArtistIds(st)
      && ArtistFromCreateForm(r.store.artists[|st.artists|], f, genresOf)
  {
    if !SuppliesAll(f, ArtistCreateKeys) then Rollback(st)
    else
      assert SuppliesAll(f, ArtistEditKeys) by {
        assert forall k :: k in ArtistEditKeys ==> k in ArtistCreateKeys;
      }
      assert "genres" in ArtistCreateKeys;
      match ArtistOf(f, NextArtistId(st), genresOf(Field(f, "genres").value))
      case None => Rollback(st)
      case Some(a) => Outcome(st.(artists := st.artists + [a]), false)
  }

  /**
   Artist edit: a known artist, a valid form, a readable seeking pair and all
   seven single-valued keys; then every field but the id is replaced and
   nothing else changes. Otherwise nothing changes.
   */
  function EditArtist(st: Store, artistId: int, f: Form, valid: bool): (r: Outcome)
    ensures !r.error <==>
      && artistId in ArtistIds(st)
      && valid
      && ParseSeeking(f, "seeking_venue").Some?
      && SuppliesAll(f, ArtistEditKeys)
    ensures r.error ==> r.store == st
    ensures !r.error ==>
      && r.store.venues == st.venues
      && r.store.shows == st.shows
      && |r.store.artists| == |st.artists|
      && forall i :: 0 <= i < |st.artists| ==>
           if st.artists[i].id == artistId
           then r.store.artists[i].id == artistId && ArtistFromEditForm(r.store.artists[i], f)
           else r.store.artists[i] == st.artists[i]
  {
    if FindArtist(st, artistId).None? || !valid then Rollback(st)
    else
      match ArtistOf(f, artistId, Values(f, "genres"))
      case None => Rollback(st)
      case Some(a) =>
        var xs := seq(|st.artists|, i requires 0 <= i < |st.artists| =>
          if st.artists[i].id == artistId then a else st.artists[i]);
        Outcome(st.(artists := xs), false)
  }

  // ---------------------------------------------------------------------
  // Shows
  // ---------------------------------------------------------------------

  /**
   `s` is what the show form describes: both ids read as decimal numbers and
   the start time read by `parseTime`, the database's timestamp conversion.
   */
  predicate ShowFromForm(s: Show, f: Form, parseTime: string -> Option<int>)
  {
    && Field(f, "artist_id").Some? && ParseId(Field(f, "artist_id").value) == Some(s.artistId)
    && Field(f, "venue_id").Some? && ParseId(Field(f, "venue_id").value) == Some(s.venueId)
    && Field(f, "start_time").Some? && parseTime(Field(f, "start_time").value) == Some(s.startTime)
  }

  /** The show a form describes under id `id`; None when a key is missing or does not convert. */
  function ShowOf(f: Form, id: int, parseTime: string -> Option<int>): (r: Option<Show>)
    ensures r.Some? ==> r.value.id == id && ShowFromForm(r.value, f, parseTime)
    ensures r.None? ==> forall s :: !ShowFromForm(s, f, parseTime)
  {
    var artist := Field(f, "artist_id");
    var venue := Field(f, "venue_id");
    var start := Field(f, "start_time");
    if artist.None? || venue.None? || start.None? then None
    else
      var artistId := ParseId(artist.value);
      var venueId := ParseId(venue.value);
      var startTime := parseTime(start.value);
      if artistId.None? || venueId.None? || startTime.None? then None
      else Some(Show(id, artistId.value, venueId.value, startTime.value))
  }

  /**
   Show creation: the submitted artist and venue must exist (the foreign keys
   are checked at commit); the new show gets a fresh id and is appended, nothing
   else changes. A missing or unreadable field, or an unknown artist or venue,
   rolls everything back.
   */
  function CreateShow(st: Store, f: Form, parseTime: string -> Option<int>): (r: Outcome)
    ensures r.error ==> r.store == st
    ensures r.error ==> forall s :: ShowFromForm(s, f, parseTime) ==> !ShowIsLinked(st, s)
    ensures !r.error ==>
      && r.store.venues == st.venues
      && r.store.artists == st.artists
      && |r.store.shows| == |st.shows| + 1
      && r.store.shows[..|st.shows|] == st.shows
      && r.store.shows[|st.shows|].id !in ShowIds(st)
      && ShowFromForm(r.store.shows[|st.shows|], f, parseTime)
      && ShowIsLinked(st, r.store.shows[|st.shows|])
  {
    match ShowOf(f, NextShowId(st), parseTime)
    case None => Rollback(st)
    case Some(s) =>
      if ShowIsLinked(st, s) then Outcome(st.(shows := st.shows + [s]), false)
      else Rollback(st)
  }

  // ---------------------------------------------------------------------
  // Properties across requests
  // ---------------------------------------------------------------------

  /** Create then fetch: the id handed out finds a venue holding exactly what the form sent. */
  lemma CreateVenueThenFetch(st: Store, f: Form)
    requires !CreateVenue(st, f).error
    ensures var found := FindVenue(CreateVenue(st, f).store, NextVenueId(st));
      found.Some? && found.value.id == NextVenueId(st) && VenueFromCreateForm(found.value, f)
  {
    var st' := CreateVenue(st, f).store;
    var v := st'.venues[|st.venues|];
    assert v.id == NextVenueId(st) by {
      assert v in st'.venues;
    }
    assert st'.venues == st.venues + [v];
    var found := FindVenue(st', v.id);
    assert v in st'.venues;
    assert found.Some?;
  }

  /** Create then fetch: the id handed out finds an artist holding exactly what the form sent. */
  lemma CreateArtistThenFetch(st: Store, f: Form, genresOf: string -> seq<string>)
    requires !CreateArtist(st, f, genresOf).error
    ensures var found := FindArtist(CreateArtist(st, f, genresOf).store, NextArtistId(st));
      found.Some? && found.value.id == NextArtistId(st) && ArtistFromCreateForm(found.value, f, genresOf)
  {
    var st' := CreateArtist(st, f, genresOf).store;
    var a := st'.artists[|st.artists|];
    assert st'.artists == st.artists + [a];
    assert a in st'.artists;
    var found := FindArtist(st', a.id);
  }

  /** A newly created venue heads the home page's recent venues. */
  lemma CreatedVenueIsMostRecent(st: Store, f: Form)
    requires SuppliesAll(f, VenueCreateKeys)
    ensures var recent := Index(CreateVenue(st, f).store).venues;
      |recent| > 0 && recent[0].id == NextVenueId(st)
  {
    var st' := CreateVenue(st, f).store;
    var v := st'.venues[|st.venues|];
    assert st'.venues == st.venues + [v];
    forall u | u in st'.venues && u != v
      ensures VenueKey(u) < VenueKey(v)
    {
      assert u in st.venues;
    }
    TopStartsWithLargest(Index(st').venues, st'.venues, VenueKey, RecentLimit, v);
  }

  /** A deleted venue's page is gone and none of the remaining shows is booked there. */
  lemma DeletedVenueIsGone(st: Store, venueId: int, now: int)
    requires !DeleteVenue(st, venueId).error
    ensures var st' := DeleteVenue(st, venueId).store;
      && ShowVenue(st', venueId, now).None?
      && forall s :: s in st'.shows ==> s.venueId != venueId
  {
  }

  lemma CreateVenuePreservesWellFormed(st: Store, f: Form)
    requires WellFormed(st)
    ensures WellFormed(CreateVenue(st, f).store)
  {
    var r := CreateVenue(st, f);
    if !r.error {
      var v := r.store.venues[|st.venues|];
      assert r.store.venues == st.venues + [v];
      UniqueKeysAppend(st.venues, VenueKey, v);
    }
  }

  lemma CreateArtistPreservesWellFormed(st: Store, f: Form, genresOf: string -> seq<string>)
    requires WellFormed(st)
    ensures WellFormed(CreateArtist(st, f, genresOf).store)
  {
    var r := CreateArtist(st, f, genresOf);
    if !r.error {
      var a := r.store.artists[|st.artists|];
      assert r.store.artists == st.artists + [a];
      UniqueKeysAppend(st.artists, ArtistKey, a);
    }
  }

  /** Appending a show under a fresh id that names an existing artist and venue keeps a store well formed. */
  lemma AppendShowWellFormed(st: Store, s: Show)
    requires WellFormed(st)
    requires ShowIsLinked(st, s) && s.id !in ShowIds(st)
    ensures WellFormed(st.(shows := st.shows + [s]))
  {
    var st' := st.(shows := st.shows + [s]);
    UniqueKeysAppend(st.shows, ShowKey, s);
    assert ArtistIds(st') == ArtistIds(st) && VenueIds(st') == VenueIds(st);
    forall x | x in st'.shows
      ensures ShowIsLinked(st', x)
    {
      if x != s {
        assert x in st.shows;
      }
    }
  }

  lemma CreateShowPreservesWellFormed(st: Store, f: Form, parseTime: string -> Option<int>)
    requires WellFormed(st)
    ensures WellFormed(CreateShow(st, f, parseTime).store)
  {
    var r := CreateShow(st, f, parseTime);
    if !r.error {
      var s := r.store.shows[|st.shows|];
      assert r.store.shows == st.shows + [s];
      assert r.store == st.(shows := st.shows + [s]);
      AppendShowWellFormed(st, s);
    }
  }

  lemma EditArtistPreservesWellFormed(st: Store, artistId: int, f: Form, valid: bool)
    requires WellFormed(st)
    ensures WellFormed(EditArtist(st, artistId, f, valid).store)
  {
    var r := EditArtist(st, artistId, f, valid);
    if !r.error {
      SameKeysPointwise(st.artists, r.store.artists, ArtistKey);
    }
  }

  lemma EditVenuePreservesWellFormed(st: Store, venueId: int, f: Form, valid: bool)
    requires WellFormed(st)
    ensures WellFormed(EditVenue(st, venueId, f, valid).store)
  {
    var r := EditVenue(st, venueId, f, valid);
    if !r.error {
      SameKeysPointwise(st.venues, r.store.venues, VenueKey);
    }
  }

  /** Deleting a venue leaves no orphan show: the cascade keeps the store well formed. */
  lemma DeleteVenuePreservesWellFormed(st: Store, venueId: int)
    requires WellFormed(st)
    ensures WellFormed(DeleteVenue(st, venueId).store)
  {
    var r := DeleteVenue(st, venueId);
    if !r.error {
      UniqueKeysFilter(st.venues, VenueKey, (v: Venue) => v.id != venueId);
      UniqueKeysFilter(st.shows, ShowKey, (s: Show) => s.venueId != venueId);
      forall s | s in r.store.shows
        ensures ShowIsLinked(r.store, s)
      {
        assert s in st.shows;
        var v :| v in st.venues && v.id == s.venueId;
        assert v in r.store.venues;
      }
    }
  }
}

=== FILE: queries.dfy ===
/**
 The read side of the booking directory: the home page's recent listings, the
 venue listing by location, venue and artist search, and the venue and artist
 pages with their shows split around the evaluation instant `now`.
 */
module Queries {
  import opened Common
  import opened Text
  import opened Entities
  import opened Ranking

  // ---------------------------------------------------------------------
  // Home page
  // ---------------------------------------------------------------------

  /** How many recent artists and venues the home page lists. */
  const RecentLimit: nat := 10

  datatype Home = Home(artists: seq<Artist>, venues: seq<Venue>)

  /** The home page: the most recently listed artists and venues, newest (highest id) first. */
  function Index(st: Store): (r: Home)
    ensures IsTop(r.artists, st.artists, ArtistKey, RecentLimit)
    ensures IsTop(r.venues, st.venues, VenueKey, RecentLimit)
  {
    Home(Top(st.artists, ArtistKey, RecentLimit), Top(st.venues, VenueKey, RecentLimit))
  }

  // ---------------------------------------------------------------------
  // Search
  // ---------------------------------------------------------------------

  /** One search result: only the id and the name of the record. */
  datatype Hit = Hit(id: int, name: string)

  datatype SearchResult = SearchResult(count: nat, data: seq<Hit>)

  function VenueHit(v: Venue): Hit { Hit(v.id, v.name) }
  function ArtistHit(a: Artist): Hit { Hit(a.id, a.name) }

  /** A venue matches when the term occurs, ignoring case, in its name, city or state. */
  predicate VenueMatches(term: string, v: Venue)
  {
    Matches(term, v.name) || Matches(term, v.city) || Matches(term, v.state)
  }

  /** An artist matches on the name alone. */
  predicate ArtistMatches(term: string, a: Artist)
  {
    Matches(term, a.name)
  }

  /** `term` occurs in `field` once both are lower-cased: the meaning of `ILIKE '%term%'` on ASCII text. */
  ghost predicate Mentions(field: string, term: string)
  {
    IsSubstring(Lower(term), Lower(field))
  }

  /** The reference reading of a venue match: the term occurs in the name, the city or the state. */
  ghost predicate VenueMentions(v: Venue, term: string)
  {
    Mentions(v.name, term) || Mentions(v.city, term) || Mentions(v.state, term)
  }

  function SearchVenues(st: Store, term: string): (r: SearchResult)
    ensures r.count == |r.data|
    ensures forall h :: h in r.data <==> exists v :: v in st.venues && VenueMatches(term, v) && h == VenueHit(v)
    ensures forall h :: h in r.data <==> exists v :: v in st.venues && h == VenueHit(v) && VenueMentions(v, term)
  {
    var data := Map(Filter(st.venues, v => VenueMatches(term, v)), VenueHit);
    assert forall v: Venue :: VenueMatches(term, v) <==> VenueMentions(v, term) by {
      forall v: Venue
        ensures VenueMatches(term, v) <==> VenueMentions(v, term)
      {
        MatchesMeansSubstring(term, v.name);
        MatchesMeansSubstring(term, v.city);
        MatchesMeansSubstring(term, v.state);
      }
    }
    SearchResult(|data|, data)
  }

  function SearchArtists(st: Store, term: string): (r: SearchResult)
    ensures r.count == |r.data|
    ensures forall h :: h in r.data <==> exists a :: a in st.artists && ArtistMatches(term, a) && h == ArtistHit(a)
    ensures forall h :: h in r.data <==> exists a :: a in st.artists && h == ArtistHit(a) && Mentions(a.name, term)
  {
    var data := Map(Filter(st.artists, a => ArtistMatches(term, a)), ArtistHit);
    assert forall a: Artist :: ArtistMatches(term, a) <==> Mentions(a.name, term) by {
      forall a: Artist
        ensures ArtistMatches(term, a) <==> Mentions(a.name, term)
      {
        MatchesMeansSubstring(term, a.name);
      }
    }
    SearchResult(|data|, data)
  }

  /** The empty term matches every venue: all of them are returned, in store order. */
  lemma SearchVenuesEmptyTerm(st: Store)
    ensures SearchVenues(st, "").data == Map(st.venues, VenueHit)
    ensures SearchVenues(st, "").count == |st.venues|
  {
    forall v | v in st.venues
      ensures VenueMatches("", v)
    {
      EmptyOccursEverywhere(Lower(v.name));
    }
    FilterKeepsAll(st.venues, v => VenueMatches("", v));
  }

  /** The empty term matches every artist: all of them are returned, in store order. */
  lemma SearchArtistsEmptyTerm(st: Store)
    ensures SearchArtists(st, "").data == Map(st.artists, ArtistHit)
    ensures SearchArtists(st, "").count == |st.artists|
  {
    forall a | a in st.artists
      ensures ArtistMatches("", a)
    {
      EmptyOccursEverywhere(Lower(a.name));
    }
    FilterKeepsAll(st.artists, a => ArtistMatches("", a));
  }

  /** Venue search is case-insensitive: terms equal up to case give identical results. */
  lemma SearchVenuesIgnoresCase(st: Store, t1: string, t2: string)
    requires Lower(t1) == Lower(t2)
    ensures SearchVenues(st, t1) == SearchVenues(st, t2)
  {
    FilterAgree(st.venues, v => VenueMatches(t1, v), v => VenueMatches(t2, v));
  }

  /** Artist search is case-insensitive: terms equal up to case give identical results. */
  lemma SearchArtistsIgnoresCase(st: Store, t1: string, t2: string)
    requires Lower(t1) == Lower(t2)
    ensures SearchArtists(st, t1) == SearchArtists(st, t2)
  {
    FilterAgree(st.artists, a => ArtistMatches(t1, a), a => ArtistMatches(t2, a));
  }

  /** Results keep store order: the hits among `a + b` are the hits among `a` followed by those among `b`. */
  lemma SearchVenuesKeepsOrder(st: Store, a: seq<Venue>, b: seq<Venue>, term: string)
    requires st.venues == a + b
    ensures SearchVenues(st, term).data ==
      SearchVenues(st.(venues := a), term).data + SearchVenues(st.(venues := b), term).data
  {
    var p := v => VenueMatches(term, v);
    FilterAppend(a, b, p);
    MapAppend(Filter(a, p), Filter(b, p), VenueHit);
  }

  /** A one-venue store yields that venue's hit exactly once when it mentions the term, and nothing otherwise. */
  lemma SearchVenuesOne(st: Store, v: Venue, term: string)
    requires st.venues == [v]
    ensures SearchVenues(st, term).data == (if VenueMentions(v, term) then [VenueHit(v)] else [])
    ensures SearchVenues(st, term).count == (if VenueMentions(v, term) then 1 else 0)
  {
    MatchesMeansSubstring(term, v.name);
    MatchesMeansSubstring(term, v.city);
    MatchesMeansSubstring(term, v.state);
    assert st.venues[1..] == [];
  }

  /** Artist search results keep store order: the hits in `a + b` are those in `a`, then those in `b`. */
  lemma SearchArtistsKeepsOrder(st: Store, a: seq<Artist>, b: seq<Artist>, term: string)
    requires st.artists == a + b
    ensures SearchArtists(st, term).data ==
      SearchArtists(st.(artists := a), term).data + SearchArtists(st.(artists := b), term).data
  {
    var p := x => ArtistMatches(term, x);
    FilterAppend(a, b, p);
    MapAppend(Filter(a, p), Filter(b, p), ArtistHit);
  }

  /** A one-artist store yields that artist's hit exactly once when its name mentions the term, and nothing otherwise. */
  lemma SearchArtistsOne(st: Store, a: Artist, term: string)
    requires st.artists == [a]
    ensures SearchArtists(st, term).data == (if Mentions(a.name, term) then [ArtistHit(a)] else [])
    ensures SearchArtists(st, term).count == (if Mentions(a.name, term) then 1 else 0)
  {
    MatchesMeansSubstring(term, a.name);
    assert st.artists[1..] == [];
  }

  /** Artist search never consults city or state: changing them leaves every result unchanged. */
  lemma SearchArtistsIgnoresLocation(st: Store, i: nat, city: string, state: string, term: string)
    requires i < |st.artists|
    ensures SearchArtists(st.(artists := st.artists[i := st.artists[i].(city := city, state := state)]), term)
         == SearchArtists(st, term)
  {
    var a := st.artists[i];
    var moved := a.(city := city, state := state);
    var xs := st.artists[i := moved];
    var p := x => ArtistMatches(term, x);
    assert st.artists == st.artists[..i] + [a] + st.artists[i + 1..];
    assert xs == st.artists[..i] + [moved] + st.artists[i + 1..];
    FilterAppend(st.artists[..i] + [a], st.artists[i + 1..], p);
    FilterAppend(st.artists[..i], [a], p);
    FilterAppend(st.artists[..i] + [moved], st.artists[i + 1..], p);
    FilterAppend(st.artists[..i], [moved], p);
    var before := Filter(st.artists, p);
    var after := Filter(xs, p);
    assert Map(before, ArtistHit) == Map(after, ArtistHit) by {
      MapAppend(Filter(st.artists[..i], p), Filter([a], p), ArtistHit);
      MapAppend(Filter(st.artists[..i], p), Filter([moved], p), ArtistHit);
      MapAppend(Filter(st.artists[..i], p) + Filter([a], p), Filter(st.artists[i + 1..], p), ArtistHit);
      MapAppend(Filter(st.artists[..i], p) + Filter([moved], p), Filter(st.artists[i + 1..], p), ArtistHit);
      assert Map(Filter([a], p), ArtistHit) == Map(Filter([moved], p), ArtistHit);
    }
  }

  // ---------------------------------------------------------------------
  // Venue and artist pages
  // ---------------------------------------------------------------------

  datatype Period = Past | Upcoming

  /**
   The strict comparison each page query makes against `now`: a show starting
   exactly at `now` is in neither period.
   */
  predicate InPeriod(startTime: int, period: Period, now: int)
  {
    match period
    case Past => startTime < now
    case Upcoming => startTime > now
  }

  /** The side of a booking a page looks from: the hosting venue or the performing artist. */
  datatype Side = AtVenue | ByArtist

  /** The id of the party on `side` of show `s`. */
  function PartyOf(s: Show, side: Side): int
  {
    match side
    case AtVenue => s.venueId
    case ByArtist => s.artistId
  }

  /** The shows booked for `id` on `side` in `period`, in store order. */
  function BookedShows(shows: seq<Show>, side: Side, id: int, period: Period, now: int): (r: seq<Show>)
    ensures forall s :: s in r <==> s in shows && PartyOf(s, side) == id && InPeriod(s.startTime, period, now)
  {
    Filter(shows, (s: Show) => PartyOf(s, side) == id && InPeriod(s.startTime, period, now))
  }

  /** A show on a venue page: the performing artist and the start time. */
  datatype ArtistSlot = ArtistSlot(artistId: int, artistName: string, artistImageLink: string, startTime: int)

  /** A show on an artist page: the hosting venue and the start time. */
  datatype VenueSlot = VenueSlot(venueId: int, venueName: string, venueImageLink: string, startTime: int)

  /** The show joined with its artist; None when the artist row is missing (an inner join drops it). */
  function ArtistSlotOf(st: Store, s: Show): Option<ArtistSlot>
  {
    match FindArtist(st, s.artistId)
    case Some(a) => Some(ArtistSlot(s.artistId, a.name, a.imageLink, s.startTime))
    case None => None
  }

  /** The show joined with its venue; None when the venue row is missing. */
  function VenueSlotOf(st: Store, s: Show): Option<VenueSlot>
  {
    match FindVenue(st, s.venueId)
    case Some(v) => Some(VenueSlot(s.venueId, v.name, v.imageLink, s.startTime))
    case None => None
  }

  /** `e` lists some show of venue `venueId` in `period`. */
  ghost predicate ListedAtVenue(st: Store, venueId: int, period: Period, now: int, e: ArtistSlot)
  {
    exists s :: s in st.shows && s.venueId == venueId && InPeriod(s.startTime, period, now) && ArtistSlotOf(st, s) == Some(e)
  }

  /** `e` lists some show of artist `artistId` in `period`. */
  ghost predicate ListedForArtist(st: Store, artistId: int, period: Period, now: int, e: VenueSlot)
  {
    exists s :: s in st.shows && s.artistId == artistId && InPeriod(s.startTime, period, now) && VenueSlotOf(st, s) == Some(e)
  }

  function ArtistSlots(st: Store, venueId: int, period: Period, now: int): (r: seq<ArtistSlot>)
    ensures forall e :: e in r <==> ListedAtVenue(st, venueId, period, now, e)
  {
    var shows := BookedShows(st.shows, AtVenue, venueId, period, now);
    var r := FilterMap(shows, s => ArtistSlotOf(st, s));
    assert forall e :: e in r <==> exists s :: s in shows && ArtistSlotOf(st, s) == Some(e);
    r
  }

  function VenueSlots(st: Store, artistId: int, period: Period, now: int): (r: seq<VenueSlot>)
    ensures forall e :: e in r <==> ListedForArtist(st, artistId, period, now, e)
  {
    var shows := BookedShows(st.shows, ByArtist, artistId, period, now);
    var r := FilterMap(shows, s => VenueSlotOf(st, s));
    assert forall e :: e in r <==> exists s :: s in shows && VenueSlotOf(st, s) == Some(e);
    r
  }

  datatype VenuePage = VenuePage(
    venue: Venue,
    pastShows: seq<ArtistSlot>,
    upcomingShows: seq<ArtistSlot>,
    pastShowsCount: nat,
    upcomingShowsCount: nat)

  datatype ArtistPage = ArtistPage(
    artist: Artist,
    pastShows: seq<VenueSlot>,
    upcomingShows: seq<VenueSlot>,
    pastShowsCount: nat,
    upcomingShowsCount: nat)

  /**
   The venue page: the venue with its past shows (start before `now`) and
   upcoming shows (start after `now`) and their counts; None for an unknown
   venue, where the page raises.
   */
  function ShowVenue(st: Store, venueId: int, now: int): (r: Option<VenuePage>)
    ensures r.Some? <==> venueId in VenueIds(st)
    ensures r.Some? ==> r.value.venue in st.venues && r.value.venue.id == venueId
    ensures r.Some? ==> r.value.pastShowsCount == |r.value.pastShows|
    ensures r.Some? ==> r.value.upcomingShowsCount == |r.value.upcomingShows|
    ensures r.Some? ==> forall e :: e in r.value.pastShows <==> ListedAtVenue(st, venueId, Past, now, e)
    ensures r.Some? ==> forall e :: e in r.value.upcomingShows <==> ListedAtVenue(st, venueId, Upcoming, now, e)
  {
    match FindVenue(st, venueId)
    case None => None
    case Some(v) =>
      var past := ArtistSlots(st, venueId, Past, now);
      var upcoming := ArtistSlots(st, venueId, Upcoming, now);
      Some(VenuePage(v, past, upcoming, |past|, |upcoming|))
  }

  /** The artist page, the mirror image of the venue page. */
  function ShowArtist(st: Store, artistId: int, now: int): (r: Option<ArtistPage>)
    ensures r.Some? <==> artistId in ArtistIds(st)
    ensures r.Some? ==> r.value.artist in st.artists && r.value.artist.id == artistId
    ensures r.Some? ==> r.value.pastShowsCount == |r.value.pastShows|
    ensures r.Some? ==> r.value.upcomingShowsCount == |r.value.upcomingShows|
    ensures r.Some? ==> forall e :: e in r.value.pastShows <==> ListedForArtist(st, artistId, Past, now, e)
    ensures r.Some? ==> forall e :: e in r.value.upcomingShows <==> ListedForArtist(st, artistId, Upcoming, now, e)
  {
    match FindArtist(st, artistId)
    case None => None
    case Some(a) =>
      var past := VenueSlots(st, artistId, Past, now);
      var upcoming := VenueSlots(st, artistId, Upcoming, now);
      Some(ArtistPage(a, past, upcoming, |past|, |upcoming|))
  }

  /**
   The venue page splits shows strictly around `now`: past slots start before it,
   upcoming ones after it, no slot is in both lists, and a show starting exactly
   at `now` is in neither.
   */
  lemma VenuePageSplitsAtNow(st: Store, venueId: int, now: int, s: Show)
    requires venueId in VenueIds(st)
    ensures var p := ShowVenue(st, venueId, now).value;
      && (forall e :: e in p.pastShows ==> e.startTime < now)
      && (forall e :: e in p.upcomingShows ==> e.startTime > now)
      && (forall e :: !(e in p.pastShows && e in p.upcomingShows))
      && (s.startTime == now && ArtistSlotOf(st, s).Some? ==>
            ArtistSlotOf(st, s).value !in p.pastShows && ArtistSlotOf(st, s).value !in p.upcomingShows)
  {
  }

  /** The artist page splits shows strictly around `now`, as the venue page does. */
  lemma ArtistPageSplitsAtNow(st: Store, artistId: int, now: int, s: Show)
    requires artistId in ArtistIds(st)
    ensures var p := ShowArtist(st, artistId, now).value;
      && (forall e :: e in p.pastShows ==> e.startTime < now)
      && (forall e :: e in p.upcomingShows ==> e.startTime > now)
      && (forall e :: !(e in p.pastShows && e in p.upcomingShows))
      && (s.startTime == now && VenueSlotOf(st, s).Some? ==>
            VenueSlotOf(st, s).value !in p.pastShows && VenueSlotOf(st, s).value !in p.upcomingShows)
  {
  }

  /**
   In a well-formed store no show is lost to the join: each count on the venue
   page is the number of the venue's shows in that period.
   */
  lemma VenuePageCountsShows(st: Store, venueId: int, now: int)
    requires WellFormed(st)
    requires venueId in VenueIds(st)
    ensures ShowVenue(st, venueId, now).value.pastShowsCount == |BookedShows(st.shows, AtVenue, venueId, Past, now)|
    ensures ShowVenue(st, venueId, now).value.upcomingShowsCount == |BookedShows(st.shows, AtVenue, venueId, Upcoming, now)|
  {
  }

  /** In a well-formed store each count on the artist page is the number of the artist's shows in that period. */
  lemma ArtistPageCountsShows(st: Store, artistId: int, now: int)
    requires WellFormed(st)
    requires artistId in ArtistIds(st)
    ensures ShowArtist(st, artistId, now).value.pastShowsCount == |BookedShows(st.shows, ByArtist, artistId, Past, now)|
    ensures ShowArtist(st, artistId, now).value.upcomingShowsCount == |BookedShows(st.shows, ByArtist, artistId, Upcoming, now)|
  {
  }

  // ---------------------------------------------------------------------
  // Venue listing
  // ---------------------------------------------------------------------

  datatype VenueSummary = VenueSummary(id: int, name: string, numUpcomingShows: nat)

  /** A bucket of the venue listing: a location and the venues listed under it. */
  datatype Area = Area(city: string, state: string, venues: seq<VenueSummary>)

  /** A venue as the listing shows it, with the number of its shows after `now`. */
  function Summary(st: Store, v: Venue, now: int): VenueSummary
  {
    VenueSummary(v.id, v.name, |BookedShows(st.shows, AtVenue, v.id, Upcoming, now)|)
  }

  /** The listing's bucket test: the concatenated state and city differ from the empty string. */
  predicate HasLocation(v: Venue)
  {
    v.state + v.city != ""
  }

  function AreasOf(st: Store, vs: seq<Venue>, now: int): seq<Area>
  {
    if vs == [] then []
    else
      var v := vs[0];
      (if HasLocation(v) then [Area(v.city, v.state, [Summary(st, v, now)])] else [])
      + AreasOf(st, vs[1..], now)
  }

  /**
   The venue listing as the route builds it. Its remembered location is never
   updated from the empty string, so every venue with a location opens a bucket
   of its own holding just that venue, in store order, and a venue whose state
   and city are both empty is not listed at all.
   */
  function VenueAreas(st: Store, now: int): (r: seq<Area>)
    ensures var located := Filter(st.venues, HasLocation);
      && |r| == |located|
      && forall i :: 0 <= i < |r| ==>
           && r[i].city == located[i].city
           && r[i].state == located[i].state
           && r[i].venues == [Summary(st, located[i], now)]
  {
    AreasOfLocated(st, st.venues, now);
    AreasOf(st, st.venues, now)
  }

  lemma {:induction false} AreasOfLocated(st: Store, vs: seq<Venue>, now: int)
    ensures var located := Filter(vs, HasLocation);
      var r := AreasOf(st, vs, now);
      && |r| == |located|
      && forall i :: 0 <= i < |r| ==>
           && r[i].city == located[i].city
           && r[i].state == located[i].state
           && r[i].venues == [Summary(st, located[i], now)]
  {
    if vs != [] {
      AreasOfLocated(st, vs[1..], now);
    }
  }

  /**
   Any two different venues at the same location are listed in two different
   buckets carrying that same city and state, each holding just one of them,
   where a grouping by location would give one bucket.
   */
  lemma SharedLocationSplitsAreas(st: Store, i: nat, j: nat, now: int)
    requires i < j < |st.venues|
    requires st.venues[i].id != st.venues[j].id
    requires HasLocation(st.venues[i])
    requires st.venues[i].city == st.venues[j].city && st.venues[i].state == st.venues[j].state
    ensures var r := VenueAreas(st, now);
      var vi, vj := st.venues[i], st.venues[j];
      exists a, b :: 0 <= a < |r| && 0 <= b < |r| && a != b
        && r[a] == Area(vi.city, vi.state, [Summary(st, vi, now)])
        && r[b] == Area(vi.city, vi.state, [Summary(st, vj, now)])
  {
    var r := VenueAreas(st, now);
    var located := Filter(st.venues, HasLocation);
    var vi, vj := st.venues[i], st.venues[j];
    assert vi in st.venues && vj in st.venues;
    assert vi in located && vj in located;
    var a :| 0 <= a < |located| && located[a] == vi;
    var b :| 0 <= b < |located| && located[b] == vj;
    assert r[a] == Area(vi.city, vi.state, [Summary(st, vi, now)]);
    assert r[b] == Area(vi.city, vi.state, [Summary(st, vj, now)]);
  }

  /**
   The listing and the venue page agree: in a well-formed store a listed venue's
   number of upcoming shows is its page's upcoming-show count.
   */
  lemma ListingAgreesWithVenuePage(st: Store, now: int, i: nat)
    requires WellFormed(st)
    requires i < |VenueAreas(st, now)|
    ensures var entry := VenueAreas(st, now)[i].venues[0];
      && ShowVenue(st, entry.id, now).Some?
      && entry.numUpcomingShows == ShowVenue(st, entry.id, now).value.upcomingShowsCount
  {
    var located := Filter(st.venues, HasLocation);
    var v := located[i];
    assert v in st.venues;
    assert v.id in VenueIds(st);
    VenuePageCountsShows(st, v.id, now);
  }
}

=== FILE: ranking.dfy ===
/**
 `ORDER BY key DESC LIMIT k` over a table: a functional insertion sort on the
 key, descending, and the prefix of the first `k` rows.
 */
module Ranking {

  predicate Descending<T>(xs: seq<T>, key: T -> int)
  {
    forall i, j :: 0 <= i < j < |xs| ==> key(xs[i]) >= key(xs[j])
  }

  /** Places `x` in front of the first element whose key it reaches. */
  function Insert<T(==,!new)>(x: T, xs: seq<T>, key: T -> int): (r: seq<T>)
    requires Descending(xs, key)
    ensures Descending(r, key)
    ensures multiset(r) == multiset(xs) + multiset{x}
    ensures forall e :: e in r ==> e == x || e in xs
  {
    if xs == [] || key(x) >= key(xs[0]) then [x] + xs
    else
      var rest := Insert(x, xs[1..], key);
      BelowHead(x, xs, rest, key);
      assert multiset(xs) == multiset{xs[0]} + multiset(xs[1..]) by {
        assert xs == [xs[0]] + xs[1..];
      }
      [xs[0]] + rest
  }

  /**
   Whatever `Insert` puts after the head of `xs`, when `x` ranks below it, keeps
   the head in front.
   */
  lemma BelowHead<T>(x: T, xs: seq<T>, rest: seq<T>, key: T -> int)
    requires Descending(xs, key) && |xs| > 0 && key(x) < key(xs[0])
    requires Descending(rest, key)
    requires forall e :: e in rest ==> e == x || e in xs[1..]
    ensures Descending([xs[0]] + rest, key)
  {
    forall j | 0 <= j < |rest|
      ensures key(rest[j]) <= key(xs[0])
    {
      assert rest[j] in rest;
      if rest[j] != x {
        var m :| 0 <= m < |xs[1..]| && xs[1..][m] == rest[j];
        assert xs[m + 1] == rest[j];
      }
    }
    var r := [xs[0]] + rest;
    forall i, j | 0 <= i < j < |r|
      ensures key(r[i]) >= key(r[j])
    {
      assert r[j] == rest[j - 1];
      if i > 0 {
        assert r[i] == rest[i - 1];
      }
    }
  }

  /** The rows of `xs` by descending key: same rows, new order. */
  function SortDescending<T(==,!new)>(xs: seq<T>, key: T -> int): (r: seq<T>)
    ensures Descending(r, key)
    ensures multiset(r) == multiset(xs)
  {
    if xs == [] then []
    else
      assert xs == [xs[0]] + xs[1..];
      Insert(xs[0], SortDescending(xs[1..], key), key)
  }

  /**
   `r` is a valid answer to `ORDER BY key DESC LIMIT k` over `xs`: at most `k`
   rows of `xs`, in descending order, and no row left out has a larger key
   than a row kept.
   */
  ghost predicate IsTop<T(!new)>(r: seq<T>, xs: seq<T>, key: T -> int, k: nat)
  {
    && |r| == (if |xs| < k then |xs| else k)
    && Descending(r, key)
    && multiset(r) <= multiset(xs)
    && forall x, y :: x in multiset(xs) - multiset(r) && y in r ==> key(x) <= key(y)
  }

  function Top<T(==,!new)>(xs: seq<T>, key: T -> int, k: nat): (r: seq<T>)
    ensures IsTop(r, xs, key, k)
  {
    var s := SortDescending(xs, key);
    assert |s| == |xs| by {
      assert |multiset(s)| == |multiset(xs)|;
    }
    if |s| <= k then s
    else
      TopOfSorted(s, key, k);
      s[..k]
  }

  /** Cutting a descending sequence after `k` rows leaves nothing larger behind. */
  lemma TopOfSorted<T>(s: seq<T>, key: T -> int, k: nat)
    requires Descending(s, key)
    requires k <= |s|
    ensures multiset(s[..k]) <= multiset(s)
    ensures forall x, y :: x in multiset(s) - multiset(s[..k]) && y in s[..k] ==> key(x) <= key(y)
  {
    assert s == s[..k] + s[k..];
    assert multiset(s) == multiset(s[..k]) + multiset(s[k..]);
    forall x, y | x in multiset(s) - multiset(s[..k]) && y in s[..k]
      ensures key(x) <= key(y)
    {
      assert x in multiset(s[k..]);
      assert x in s[k..];
      var j :| 0 <= j < |s[k..]| && s[k..][j] == x;
      var i :| 0 <= i < k && s[..k][i] == y;
      assert s[i] == y && s[k + j] == x;
    }
  }

  /** A row whose key exceeds every other row's comes first in any top-`k` answer, `k > 0`. */
  lemma TopStartsWithLargest<T(!new)>(r: seq<T>, xs: seq<T>, key: T -> int, k: nat, m: T)
    requires IsTop(r, xs, key, k)
    requires k > 0 && m in xs
    requires forall x :: x in xs && x != m ==> key(x) < key(m)
    ensures |r| > 0 && r[0] == m
  {
    assert |r| > 0;
    assert r[0] in multiset(xs) by {
      assert r[0] in multiset(r);
    }
  }
}

=== FILE: text.dfy ===
/**
 String operations the booking queries rely on: ASCII case folding, the
 substring test behind an `ILIKE '%term%'` filter, and the decimal reading
 of an id submitted as form text.
 */
module Text {
  import opened Common

  function LowerChar(c: char): char
  {
    if 'A' <= c <= 'Z' then (c as int + 32) as char else c
  }

  /** ASCII lower-casing, character by character. */
  function Lower(s: string): (r: string)
    ensures |r| == |s|
    ensures forall i :: 0 <= i < |s| ==> r[i] == LowerChar(s[i])
  {
    seq(|s|, i requires 0 <= i < |s| => LowerChar(s[i]))
  }

  /** `t` occurs in `s` starting at position `i`. */
  predicate OccursAt(t: string, s: string, i: int)
  {
    0 <= i && i + |t| <= |s| && s[i..i + |t|] == t
  }

  /** Reference definition: `t` is a contiguous piece of `s`. */
  ghost predicate IsSubstring(t: string, s: string)
  {
    exists i :: OccursAt(t, s, i)
  }

  /** The left-to-right scan a `'%t%'` pattern performs on `s`. */
  function Contains(s: string, t: string): bool
    decreases |s|
  {
    if |t| > |s| then false
    else s[..|t|] == t || (|s| > 0 && Contains(s[1..], t))
  }

  /** An occurrence in the tail of `s` is an occurrence in `s`, one position later. */
  lemma OccursInTail(t: string, s: string, i: int)
    requires |s| > 0 && i >= 0
    ensures OccursAt(t, s[1..], i) <==> OccursAt(t, s, i + 1)
  {
    if i + |t| <= |s| - 1 {
      assert s[1..][i..i + |t|] == s[i + 1..i + 1 + |t|];
    }
  }

  /** The scan finds `t` exactly when `t` is a substring of `s`. */
  lemma {:induction false} ContainsIsSubstring(s: string, t: string)
    ensures Contains(s, t) <==> IsSubstring(t, s)
    decreases |s|
  {
    if |t| > |s| {
    } else if s[..|t|] == t {
      assert OccursAt(t, s, 0);
    } else {
      ContainsIsSubstring(s[1..], t);
      if IsSubstring(t, s) {
        var i :| OccursAt(t, s, i);
        assert i != 0;
        OccursInTail(t, s, i - 1);
        assert OccursAt(t, s[1..], i - 1);
      }
      if IsSubstring(t, s[1..]) {
        var i :| OccursAt(t, s[1..], i);
        OccursInTail(t, s, i);
        assert OccursAt(t, s, i + 1);
      }
    }
  }

  /** The empty pattern occurs in every string. */
  lemma EmptyOccursEverywhere(s: string)
    ensures Contains(s, "")
  {
  }

  /** Case-insensitive partial match of a search term against one field. */
  predicate Matches(term: string, field: string)
  {
    Contains(Lower(field), Lower(term))
  }

  /** The case-insensitive match is a substring test on the lower-cased strings. */
  lemma MatchesMeansSubstring(term: string, field: string)
    ensures Matches(term, field) <==> IsSubstring(Lower(term), Lower(field))
  {
    ContainsIsSubstring(Lower(field), Lower(term));
  }

  predicate IsDigit(c: char)
  {
    '0' <= c <= '9'
  }

  predicate AllDigits(s: string)
  {
    forall i :: 0 <= i < |s| ==> IsDigit(s[i])
  }

  /** The number a string of decimal digits denotes, most significant digit first. */
  function DigitsValue(s: string): nat
    requires AllDigits(s)
  {
    if s == [] then 0
    else DigitsValue(s[..|s| - 1]) * 10 + (s[|s| - 1] as int - '0' as int)
  }

  /** Reading a submitted id: a non-empty run of decimal digits, or nothing. */
  function ParseId(s: string): (r: Option<int>)
    ensures r.Some? <==> |s| > 0 && AllDigits(s)
    ensures r.Some? ==> r.value >= 0
  {
    if |s| > 0 && AllDigits(s) then Some(DigitsValue(s)) else None
  }

  /** The decimal text of `n` without leading zeros, as a form would submit it. */
  function Decimal(n: nat): (s: string)
    ensures |s| > 0 && AllDigits(s)
  {
    var d := ['0' + (n % 10) as char];
    if n < 10 then d else Decimal(n / 10) + d
  }

  /** Reading back the decimal text of an id gives the id. */
  lemma {:induction false} ParseIdDecimal(n: nat)
    ensures ParseId(Decimal(n)) == Some(n)
  {
    DecimalValue(n);
  }

  lemma {:induction false} DecimalValue(n: nat)
    ensures DigitsValue(Decimal(n)) == n
  {
    var s := Decimal(n);
    if n >= 10 {
      DecimalValue(n / 10);
      assert s[..|s| - 1] == Decimal(n / 10);
    }
  }
}
